=== FILE: README.md ===
# RCI calculator model

A Dafny model of `getRci` from `RCI_GSheet_Integration.py`. This is the
Rank Correlation Index (RCI) calculator of a job that fetches stock closing
prices and publishes their RCI to a spreadsheet. For every window of
`period` consecutive closing prices, `getRci` does four things:

- It gives each element a time rank: the newest element gets 1 and the
  oldest gets `period`.
- It gives each element a price rank: `sorted_prices.index(price) + 1` in
  the window sorted from the highest price to the lowest. Equal prices
  therefore share the smaller rank.
- It sums the squared rank differences into D.
- It appends `round((1 - 6D / (period (period^2 - 1))) * 100, 2)`.

The first `period - 1` entries are `None`.

The model has five modules:

- `Results` holds the `Option` and `Result` datatypes.
- `Sums` holds sums over sequences: permutation invariance and a closed
  form for sums of squares.
- `Ranking` holds the descending sort, `list.index`, the count of greater
  elements, and time and price ranks.
- `Rci` holds the calculator. `GetRci` is the functional definition.
  `ComputeRci` and `ComputeRankDifferenceSum` are the two loops, written
  as the source writes them. `ComputeRci` is proved equal to `GetRci`, and
  `ComputeRankDifferenceSum` to the window's D, `RankDifferenceSum`.
- `RciProperties` holds the properties of the result.

The period is an arbitrary integer and slicing follows Python's rules, so
`GetRci` needs no precondition. The division by zero that Python raises
for periods -1, 0 and 1 is the `Failure(ZeroDivision)` result. Prices are
integers and every RCI value is an exact real number.

Four consequences of the code are worth stating plainly:

- For a positive period the result has `max(period - 1, len(prices))`
  entries, not always `len(prices)`: the code pads `period - 1` `None`s
  even when there are fewer prices (`Rci.GetRci`).
- No period is rejected up front. Periods -1, 0 and 1 fail only through
  the division by zero, period 1 with no prices returns `[]`, and a period
  longer than the price list yields only `None`s.
- Values are not confined to [-100, 100]. Because tied prices share the
  smaller rank, a window with ties can fall below -100: `[5, 5, 1]` with
  period 3 gives -125 (`RciProperties.TiedWindowBelowMinusHundred`). The
  lower bound of -100 is proved for windows of pairwise-distinct prices.
  The upper bound of 100 is proved for every period from 2; for periods
  of -2 and below the denominator is negative and values can exceed 100
  (`RciProperties.NegativePeriodAboveHundred`).
- For a period of -2 or below, the slice bounds `end - period + 1` and
  `end + 1` count from the end of the list, so an entry depends on later
  prices: entry 0 is 1000 for `[1, 2, 3]` but 3300 for `[1, 2, 3, 4]`
  (`RciProperties.NegativePeriodLooksAhead`). Entries never look ahead for
  periods from 2 (`RciProperties.NoLookAhead`).

## Model

| member | source | states |
|---|---|---|
| Ranking.SortDesc | RCI_GSheet_Integration.py:51 | `sorted(..., reverse=True)`: the result is in descending order and is a rearrangement (same multiset) of the window, of the same length |
| Ranking.IndexOf | RCI_GSheet_Integration.py:55 | `list.index`: the returned position holds `x`, and no earlier position does |
| Ranking.PriceRank | RCI_GSheet_Integration.py:55 | `sorted_prices.index(price) + 1` lies in [1, len(sorted_prices)]; `Ranking.PriceRankTieBreak` shows it is 1 + the number of strictly greater window prices |
| Ranking.FirstIndexInDescendingIsCountGreater | RCI_GSheet_Integration.py:51-55 | in any descending rearrangement of the window, the first occurrence of a price sits at the number of window prices strictly greater than it |
| Ranking.PriceRankTieBreak | RCI_GSheet_Integration.py:55 | the price rank is 1 + the number of strictly greater window prices, so equal prices share a rank, and the rank lies in [1, len(window)] |
| Ranking.HigherPriceBetterRank | RCI_GSheet_Integration.py:55 | a strictly higher price gets a strictly smaller price rank |
| Ranking.TimeRank | RCI_GSheet_Integration.py:54 | the time rank `period - i` of a position inside the window lies in [1, period]; `Ranking.TimeRanksArePermutation` shows the ranks are exactly 1 .. period |
| Ranking.TimeRanksArePermutation | RCI_GSheet_Integration.py:54 | the time ranks `period - i` take exactly the values 1 .. period, strictly decreasing from oldest to newest, with the newest at 1 |
| Rci.PySlice | RCI_GSheet_Integration.py:50 | Python slicing agrees with the ordinary subsequence whenever the bounds are in range |
| Rci.Window | RCI_GSheet_Integration.py:49-50 | for a positive period and an end at or past `period - 1`, the window has `period` elements, namely the prices ending at `end` |
| Rci.SquaredRankDiffs | RCI_GSheet_Integration.py:52-56 | the running sum of squared rank differences is zero only when every time rank so far equals its price rank |
| Rci.NoDifferenceIffRanksAgree | RCI_GSheet_Integration.py:51-56 | D after the inner loop (`Rci.RankDifferenceSum` uses the descending sort) is zero if and only if every element's time rank equals its price rank, for any rearrangement of the window supplying the price ranks |
| Rci.Denominator | RCI_GSheet_Integration.py:57 | `period * (period ** 2 - 1)` is zero exactly for periods -1, 0 and 1, and positive for every period from 2 |
| Rci.RciOfWindow | RCI_GSheet_Integration.py:57 | with a positive denominator the RCI is at most 100, and it is 100 exactly when D is 0 |
| Rci.RciFormula | RCI_GSheet_Integration.py:57 | `(1 - 6D / den) * 100` is 100 exactly when D is 0; for a positive divisor it is at most 100 exactly when D >= 0, at least -100 exactly when 3D <= den, and -100 exactly when 3D == den |
| Rci.Nones | RCI_GSheet_Integration.py:47 | `[None] * n` has max(n, 0) entries, all `None` |
| Rci.WindowValues | RCI_GSheet_Integration.py:48-58 | the outer loop's appends after `n` iterations are `n` defined values; `RciProperties.EntryIsWindowRci` identifies each with the RCI of its window |
| Rci.GetRci | RCI_GSheet_Integration.py:46-59 | succeeds for every period from 2, and for every period of -2 or below with len - period + 1 entries; fails for periods -1 and 0; for period 1 succeeds only on an empty list; for a positive period the result has max(period - 1, len) entries, exactly the first period - 1 of them `None` |
| Rci.ComputeRankDifferenceSum | RCI_GSheet_Integration.py:51-56 | the inner loop accumulates exactly the window's D |
| Rci.ComputeRci | RCI_GSheet_Integration.py:46-59 | the loop implementation returns exactly `GetRci`, including the division-by-zero failure |
| RciProperties.EntryIsWindowRci | RCI_GSheet_Integration.py:48-58 | for period >= 2, entry `e` of the result is the RCI of `prices[e - period + 1 .. e]` |
| RciProperties.WindowLocality | RCI_GSheet_Integration.py:48-50 | for period >= 2, two series, of any lengths, that agree on the window ending at `e` agree on entry `e` |
| RciProperties.NoLookAhead | RCI_GSheet_Integration.py:48-50 | for period >= 2, appending prices leaves every earlier entry unchanged: an entry never depends on later prices |
| RciProperties.DefinedValuesAtMostHundred | RCI_GSheet_Integration.py:57 | for period >= 2, every defined value is at most 100 |
| RciProperties.NegativePeriodAboveHundred | RCI_GSheet_Integration.py:47-57 | the 100 bound needs a period from 2: `getRci([1, 2, 3], -2)` succeeds and its first entry, the window `close_prices[0:-2] == [1]` over denominator -6, is 1000 |
| RciProperties.NegativePeriodLooksAhead | RCI_GSheet_Integration.py:47-57 | for period -2 the entries look ahead: entry 0 of `getRci([1, 2, 3, 4], -2)` is 3300, its window `[1, 2]`, while entry 0 of `getRci([1, 2, 3], -2)` is 1000 |
| RciProperties.RisingPairDifference | RCI_GSheet_Integration.py:51-56 | for a window of two rising prices and any period, D is 2 (period - 2)^2, with any descending rearrangement supplying the price ranks |
| RciProperties.NoDifferenceIffIncreasing | RCI_GSheet_Integration.py:51-56 | D is zero if and only if the window's prices strictly increase, with any descending rearrangement supplying the price ranks |
| RciProperties.HundredIffIncreasing | RCI_GSheet_Integration.py:53-57 | a window scores exactly 100 if and only if its prices strictly increase |
| RciProperties.DistinctRankIdentity | RCI_GSheet_Integration.py:53-57 | for distinct prices, D plus the mirrored sum E = sum (rank - (i + 1))^2 equals n(n^2 - 1)/3 |
| RciProperties.DistinctWindowAtLeastMinusHundred | RCI_GSheet_Integration.py:57 | a window of pairwise-distinct prices scores at least -100 |
| RciProperties.DecreasingWindowScoresMinusHundred | RCI_GSheet_Integration.py:53-57 | a strictly decreasing window scores exactly -100 |
| RciProperties.ThreePriceDifferenceSumIn | RCI_GSheet_Integration.py:51-56 | for a window of three and any descending rearrangement of it, D is (2 - c0)^2 + (1 - c1)^2 + c2^2, where ci counts the prices strictly greater than the i-th |
| RciProperties.TiedWindowBelowMinusHundred | RCI_GSheet_Integration.py:55-57 | `getRci([5, 5, 1], 3)` is `[None, None, -125]`: with ties the value can fall below -100 |
| RciProperties.WorkedExample | RCI_GSheet_Integration.py:46-59 | `getRci([10, 12, 11, 13, 9], 3)` is `[None, None, 50, 50, -50]` |
| RciProperties.PriceRankSameOrder | RCI_GSheet_Integration.py:55 | positions holding prices in the same relative order in two windows get the same price rank |
| RciProperties.RankDifferenceSumSameOrder | RCI_GSheet_Integration.py:51-56 | two windows with the same pairwise order of prices have the same D |
| RciProperties.OrderInvariance | RCI_GSheet_Integration.py:46-59 | two series with the same pairwise order of prices get identical results, failures included |
| RciProperties.MonotoneTransformInvariance | RCI_GSheet_Integration.py:46-59 | applying a strictly increasing map to every price leaves the result unchanged |

## Left out

- Rci.GetRci: entries are the exact RCI. Rounding to two decimals (`round(rci, 2)`, line 58) and floating-point error are not modelled, because they would need a model of IEEE doubles and of Python's round-half-even. The same holds for `Rci.ComputeRci`, `Rci.RciOfWindow`, `Rci.RciFormula` and `Rci.WindowValues`.
- Prices are integers. Floating-point prices, NaN and infinities are not modelled. The ranks, and so every RCI value, depend only on comparisons between prices (`RciProperties.OrderInvariance`).
- Python's `sorted` uses Timsort, while `Ranking.SortDesc` uses insertion sort. The ranking facts are stated for every descending rearrangement of the window, so they do not depend on the algorithm.
- Type errors for a non-integer period or non-numeric prices are not modelled. The period is an unbounded integer, with no machine width to wrap. The `OverflowError` that `[None] * (period - 1)` raises once `period - 1` exceeds the platform's index size, and the `MemoryError` that a huge period raises before that, are not modelled: the model returns the padded list.
- Everything else in `RCI_GSheet_Integration.py` (lines 1-45 and 61-105) is I/O, so none of it is modelled:
  - loading the configuration;
  - the e-mail notification;
  - `fetch_stock_data` with its retry policy and network access;
  - the thread-pool fan-out over tickers;
  - the Google Sheets writes;
  - the command-line entry point.

=== FILE: ranking.dfy ===
/**
 * Time ranks and price ranks of the elements of one RCI window, as
 * `getRci` assigns them: the newest element has time rank 1, and an
 * element's price rank is one plus the index of its first occurrence in
 * the window sorted from the highest price to the lowest.
 */
module Ranking {
  import opened Sums

  /** `s` runs from the highest value to the lowest. */
  predicate SortedDesc(s: seq<int>)
  {
    forall i, j :: 0 <= i < j < |s| ==> s[i] >= s[j]
  }

  predicate StrictlyIncreasing(s: seq<int>)
  {
    forall i, j :: 0 <= i < j < |s| ==> s[i] < s[j]
  }

  predicate StrictlyDecreasing(s: seq<int>)
  {
    forall i, j :: 0 <= i < j < |s| ==> s[i] > s[j]
  }

  /** No price occurs twice. */
  predicate Distinct(s: seq<int>)
  {
    forall i, j :: 0 <= i < j < |s| ==> s[i] != s[j]
  }

  /** Puts `x` into the descending sequence `s`, ahead of the elements it equals. */
  function Insert(x: int, s: seq<int>): (r: seq<int>)
    requires SortedDesc(s)
    ensures SortedDesc(r)
    ensures multiset(r) == multiset(s) + multiset{x}
  {
    if |s| == 0 then [x]
    else if x >= s[0] then [x] + s
    else
      var t := Insert(x, s[1..]);
      assert s == [s[0]] + s[1..];
      TailBelowHead(x, s, t);
      PrependSorted(s[0], t);
      [s[0]] + t
  }

  /** Inserting `x` below the head of `s` into its tail keeps every element at most the head. */
  lemma TailBelowHead(x: int, s: seq<int>, t: seq<int>)
    requires SortedDesc(s) && |s| > 0 && x < s[0]
    requires multiset(t) == multiset(s[1..]) + multiset{x}
    ensures forall j :: 0 <= j < |t| ==> t[j] <= s[0]
  {
    forall j | 0 <= j < |t| ensures t[j] <= s[0] {
      assert t[j] in multiset(t);
      if t[j] != x {
        assert t[j] in multiset(s[1..]);
        var i :| 0 <= i < |s[1..]| && s[1..][i] == t[j];
        assert s[i + 1] == t[j];
      }
    }
  }

  lemma PrependSorted(h: int, t: seq<int>)
    requires SortedDesc(t)
    requires forall j :: 0 <= j < |t| ==> t[j] <= h
    ensures SortedDesc([h] + t)
  {
    forall i, j | 0 <= i < j < |[h] + t|
      ensures ([h] + t)[i] >= ([h] + t)[j]
    {
      if i > 0 {
        assert ([h] + t)[i] == t[i - 1];
      }
      assert ([h] + t)[j] == t[j - 1];
    }
  }

  /**
   * Python's `sorted(prices, reverse=True)` on integers. The descending
   * rearrangement of a sequence of integers is unique, so the sorting
   * algorithm chosen here does not matter.
   */
  function SortDesc(a: seq<int>): (r: seq<int>)
    ensures SortedDesc(r)
    ensures multiset(r) == multiset(a)
    ensures |r| == |a|
  {
    if |a| == 0 then []
    else
      assert a == [a[0]] + a[1..];
      Insert(a[0], SortDesc(a[1..]))
  }

  /** A rearrangement keeps every member, so `sorted_prices.index(price)` finds each window price. */
  lemma RearrangementKeepsMembers(sorted: seq<int>, w: seq<int>, x: int)
    requires multiset(sorted) == multiset(w) && x in w
    ensures x in sorted
  {
    assert x in multiset(w);
  }

  /** Python's `list.index`: the position of the first occurrence of `x` in `s`. */
  function IndexOf(s: seq<int>, x: int): (k: nat)
    requires x in s
    ensures k < |s| && s[k] == x && x !in s[..k]
  {
    if s[0] == x then 0 else 1 + IndexOf(s[1..], x)
  }

  /** The number of elements of `a` strictly greater than `x`. */
  function CountGreater(a: seq<int>, x: int): (c: nat)
    ensures c <= |a|
  {
    if |a| == 0 then 0
    else CountGreater(a[..|a| - 1], x) + (if a[|a| - 1] > x then 1 else 0)
  }

  /** The time rank of window position `i` (0 is the oldest): the newest element has rank 1. */
  function TimeRank(period: int, i: int): (r: int)
    ensures 0 <= i < period ==> 1 <= r <= period
  {
    period - i
  }

  /** `sorted` is the window `w` rearranged from the highest price to the lowest. */
  predicate IsDescendingSortOf(sorted: seq<int>, w: seq<int>)
  {
    SortedDesc(sorted) && multiset(sorted) == multiset(w)
  }

  /** The price rank `sorted_prices.index(price) + 1` of `x`, given the sorted window. */
  function PriceRank(sorted: seq<int>, x: int): (r: int)
    requires x in sorted
    ensures 1 <= r <= |sorted|
  {
    IndexOf(sorted, x) + 1
  }

  // ---------------------------------------------------------------------
  // Counting elements above a threshold

  function Above(x: int): int -> int
  {
    y => if y > x then 1 else 0
  }

  lemma {:induction false} CountGreaterIsSum(a: seq<int>, x: int)
    ensures CountGreater(a, x) == SumOf(a, Above(x))
    decreases |a|
  {
    if |a| > 0 {
      CountGreaterIsSum(a[..|a| - 1], x);
    }
  }

  lemma CountGreaterConcat(a: seq<int>, b: seq<int>, x: int)
    ensures CountGreater(a + b, x) == CountGreater(a, x) + CountGreater(b, x)
  {
    CountGreaterIsSum(a + b, x);
    CountGreaterIsSum(a, x);
    CountGreaterIsSum(b, x);
    SumOfConcat(a, b, Above(x));
  }

  /** How many elements exceed `x` does not depend on the order of the elements. */
  lemma CountGreaterPermutation(a: seq<int>, b: seq<int>, x: int)
    requires multiset(a) == multiset(b)
    ensures CountGreater(a, x) == CountGreater(b, x)
  {
    CountGreaterIsSum(a, x);
    CountGreaterIsSum(b, x);
    SumOfPermutation(a, b, Above(x));
  }

  lemma {:induction false} CountGreaterAll(a: seq<int>, x: int)
    requires forall j :: 0 <= j < |a| ==> a[j] > x
    ensures CountGreater(a, x) == |a|
    decreases |a|
  {
    if |a| > 0 {
      CountGreaterAll(a[..|a| - 1], x);
    }
  }

  lemma {:induction false} CountGreaterNone(a: seq<int>, x: int)
    requires forall j :: 0 <= j < |a| ==> a[j] <= x
    ensures CountGreater(a, x) == 0
    decreases |a|
  {
    if |a| > 0 {
      CountGreaterNone(a[..|a| - 1], x);
    }
  }

  /** An element of `a` is not greater than itself, so fewer than `|a|` elements exceed it. */
  lemma {:induction false} CountGreaterOfMember(a: seq<int>, x: int)
    requires x in a
    ensures CountGreater(a, x) < |a|
    decreases |a|
  {
    var b := a[..|a| - 1];
    if a[|a| - 1] != x {
      assert a == b + [a[|a| - 1]];
      assert x in b;
      CountGreaterOfMember(b, x);
    }
  }

  /** Raising the threshold never lets more elements exceed it. */
  lemma {:induction false} CountGreaterAntitone(a: seq<int>, x: int, y: int)
    requires x <= y
    ensures CountGreater(a, y) <= CountGreater(a, x)
    decreases |a|
  {
    if |a| > 0 {
      CountGreaterAntitone(a[..|a| - 1], x, y);
    }
  }

  /** A member `y` of `a` above `x` is counted for `x` but not for `y`. */
  lemma {:induction false} CountGreaterStrictlyAntitone(a: seq<int>, x: int, y: int)
    requires x < y && y in a
    ensures CountGreater(a, y) < CountGreater(a, x)
    decreases |a|
  {
    var b := a[..|a| - 1];
    assert a == b + [a[|a| - 1]];
    if a[|a| - 1] == y {
      CountGreaterAntitone(b, x, y);
    } else {
      assert y in b;
      CountGreaterStrictlyAntitone(b, x, y);
    }
  }

  // ---------------------------------------------------------------------
  // The tie-break

  /**
   * In any descending rearrangement `s` of the window `w`, the first
   * occurrence of `x` sits exactly after the elements greater than `x`:
   * its index is the number of elements of `w` strictly greater than `x`.
   */
  lemma FirstIndexInDescendingIsCountGreater(s: seq<int>, w: seq<int>, x: int)
    requires SortedDesc(s) && multiset(s) == multiset(w) && x in w
    ensures x in s
    ensures IndexOf(s, x) == CountGreater(w, x)
  {
    assert x in s by {
      assert x in multiset(w);
    }
    var k := IndexOf(s, x);
    CountGreaterSplit(s, k, x);
    AheadOfFirstIsGreater(s, k, x);
    CountGreaterAll(s[..k], x);
    FromFirstIsAtMost(s, k, x);
    CountGreaterNone(s[k..], x);
    CountGreaterPermutation(s, w, x);
  }

  lemma CountGreaterSplit(a: seq<int>, k: nat, x: int)
    requires k <= |a|
    ensures CountGreater(a, x) == CountGreater(a[..k], x) + CountGreater(a[k..], x)
  {
    assert a == a[..k] + a[k..];
    CountGreaterConcat(a[..k], a[k..], x);
  }

  /** In a descending sequence everything ahead of the first `x` is greater than `x`. */
  lemma AheadOfFirstIsGreater(s: seq<int>, k: nat, x: int)
    requires SortedDesc(s) && k < |s| && s[k] == x && x !in s[..k]
    ensures forall j :: 0 <= j < |s[..k]| ==> s[..k][j] > x
  {
    forall j | 0 <= j < k ensures s[..k][j] > x {
      assert s[..k][j] in s[..k];
    }
  }

  /** In a descending sequence nothing from position `k` on exceeds `s[k]`. */
  lemma FromFirstIsAtMost(s: seq<int>, k: nat, x: int)
    requires SortedDesc(s) && k < |s| && s[k] == x
    ensures forall j :: 0 <= j < |s[k..]| ==> s[k..][j] <= x
  {
    forall j | 0 <= j < |s| - k ensures s[k..][j] <= x {
      assert s[k..][j] == s[k + j];
    }
  }

  /**
   * The price rank is one more than the number of window prices strictly
   * above it, so it lies in [1, |w|] and equal prices share one rank (the
   * smaller one).
   */
  lemma PriceRankTieBreak(sorted: seq<int>, w: seq<int>, x: int)
    requires IsDescendingSortOf(sorted, w) && x in w
    ensures x in sorted
    ensures PriceRank(sorted, x) == 1 + CountGreater(w, x)
    ensures 1 <= PriceRank(sorted, x) <= |w|
  {
    FirstIndexInDescendingIsCountGreater(sorted, w, x);
    CountGreaterOfMember(w, x);
  }

  /** A strictly higher price gets a strictly smaller (better) price rank. */
  lemma HigherPriceBetterRank(sorted: seq<int>, w: seq<int>, x: int, y: int)
    requires IsDescendingSortOf(sorted, w) && x in w && y in w && x < y
    ensures x in sorted && y in sorted
    ensures PriceRank(sorted, y) < PriceRank(sorted, x)
  {
    PriceRankTieBreak(sorted, w, x);
    PriceRankTieBreak(sorted, w, y);
    CountGreaterStrictlyAntitone(w, x, y);
  }

  /** The time ranks of a whole window, oldest position first. */
  function TimeRanks(period: nat): (r: seq<int>)
    ensures |r| == period && forall i :: 0 <= i < period ==> r[i] == TimeRank(period, i)
  {
    seq(period, i => TimeRank(period, i))
  }

  /**
   * Over a window of `period` elements the time ranks are a permutation of
   * 1 .. period: they take exactly the values of that range, distinct
   * positions get distinct ranks falling from oldest to newest, and the
   * newest element has rank 1.
   */
  lemma TimeRanksArePermutation(period: nat)
    ensures forall r :: r in TimeRanks(period) <==> 1 <= r <= period
    ensures forall i, j :: 0 <= i < j < period ==> TimeRanks(period)[i] > TimeRanks(period)[j]
    ensures period >= 1 ==> TimeRanks(period)[period - 1] == 1
  {
    var t := TimeRanks(period);
    forall r | 1 <= r <= period ensures r in t {
      assert t[period - r] == r;
    }
  }
}

=== FILE: rci.dfy ===
/**
 * The RCI calculator `getRci`: for every window of `period` closing prices
 * it compares the time ranks with the price ranks and maps the sum of their
 * squared differences D to (1 - 6D / (period (period^2 - 1))) * 100.
 * Entries before the first full window are `None`.
 */
module Rci {
  import opened Results
  import opened Ranking

  /** Python raises ZeroDivisionError when the divisor `period * (period ** 2 - 1)` is zero. */
  datatype RciError = ZeroDivision

  function Max(a: int, b: int): int
  {
    if a >= b then a else b
  }

  /** Python's normalisation of one slice bound against a list of length `n`. */
  function SliceBound(b: int, n: nat): (r: nat)
    ensures r <= n
  {
    if b < 0 then Max(0, b + n) else if b > n then n else b
  }

  /** Python's `a[lo:hi]`, where negative bounds count from the end and bounds are clamped. */
  function PySlice(a: seq<int>, lo: int, hi: int): (r: seq<int>)
    ensures 0 <= lo <= hi <= |a| ==> r == a[lo..hi]
    ensures |r| <= |a|
  {
    var l := SliceBound(lo, |a|);
    var h := SliceBound(hi, |a|);
    if l < h then a[l..h] else []
  }

  /** The window `close_prices[start:end + 1]` with `start = end - period + 1`. */
  function Window(prices: seq<int>, period: int, end: int): (w: seq<int>)
    ensures 1 <= period && period - 1 <= end < |prices| ==>
              |w| == period && forall i :: 0 <= i < period ==> w[i] == prices[end - period + 1 + i]
  {
    PySlice(prices, end - period + 1, end + 1)
  }

  function Square(x: int): (r: nat)
    ensures r == 0 <==> x == 0
  {
    SquarePositive(x);
    x * x
  }

  lemma SquarePositive(x: int)
    ensures x * x >= 0
    ensures x != 0 ==> x * x > 0
  {
    if x > 0 {
      assert x * x >= x;
    } else if x < 0 {
      assert x * x == (-x) * (-x);
      assert (-x) * (-x) >= -x;
    }
  }

  /** Facts about the real quotient `n / den` that the RCI formula relies on. */
  lemma Quotient(n: int, den: int)
    requires den != 0
    ensures n as real / den as real == 0.0 <==> n == 0
    ensures den > 0 && n >= 0 ==> n as real / den as real >= 0.0
  {
    var q := n as real / den as real;
    assert q * den as real == n as real;
  }

  /** Each of the first `k` elements of `w` has the same time rank as price rank in `sorted`. */
  predicate RanksAgree(w: seq<int>, sorted: seq<int>, period: int, k: nat)
    requires k <= |w|
  {
    forall i :: 0 <= i < k ==> w[i] in sorted && PriceRank(sorted, w[i]) == TimeRank(period, i)
  }

  /**
   * The running value of `rank_difference_sum` after the first `k` window
   * positions: the sum of (time rank - price rank)^2 over them, where the
   * price ranks are looked up in `sorted`, the window sorted descending.
   */
  function SquaredRankDiffs(w: seq<int>, sorted: seq<int>, period: int, k: nat): (d: nat)
    requires multiset(sorted) == multiset(w) && k <= |w|
    ensures d == 0 ==> RanksAgree(w, sorted, period, k)
  {
    if k == 0 then 0
    else
      RearrangementKeepsMembers(sorted, w, w[k - 1]);
      SquaredRankDiffs(w, sorted, period, k - 1)
      + Square(TimeRank(period, k - 1) - PriceRank(sorted, w[k - 1]))
  }

  lemma SquaredRankDiffsStep(w: seq<int>, sorted: seq<int>, period: int, i: nat)
    requires multiset(sorted) == multiset(w) && i < |w|
    ensures w[i] in sorted
    ensures SquaredRankDiffs(w, sorted, period, i + 1)
            == SquaredRankDiffs(w, sorted, period, i) + Square(TimeRank(period, i) - PriceRank(sorted, w[i]))
  {
    RearrangementKeepsMembers(sorted, w, w[i]);
  }

  /** D is zero once every time rank so far agrees with its price rank. */
  lemma {:induction false} RanksAgreeNoDifference(w: seq<int>, sorted: seq<int>, period: int, k: nat)
    requires multiset(sorted) == multiset(w) && k <= |w|
    ensures RanksAgree(w, sorted, period, k) ==>
              SquaredRankDiffs(w, sorted, period, k) == 0
  {
    if k > 0 {
      RanksAgreeNoDifference(w, sorted, period, k - 1);
      SquaredRankDiffsStep(w, sorted, period, k - 1);
    }
  }

  /** D for a whole window: `rank_difference_sum` after the inner loop. */
  function RankDifferenceSum(w: seq<int>, period: int): nat
  {
    SquaredRankDiffs(w, SortDesc(w), period, |w|)
  }

  /**
   * D is zero exactly when every element's time rank equals its price rank,
   * whichever rearrangement of the window supplies the price ranks;
   * `RankDifferenceSum` is the case of the descending sort.
   */
  lemma NoDifferenceIffRanksAgree(w: seq<int>, sorted: seq<int>, period: int)
    requires multiset(sorted) == multiset(w)
    ensures SquaredRankDiffs(w, sorted, period, |w|) == 0 <==> RanksAgree(w, sorted, period, |w|)
  {
    RanksAgreeNoDifference(w, sorted, period, |w|);
  }

  /** The divisor `period * (period ** 2 - 1)`; it vanishes exactly for periods -1, 0 and 1. */
  function Denominator(period: int): (r: int)
    ensures r == 0 <==> -1 <= period <= 1
    ensures period >= 2 ==> r > 0
  {
    var q := period * period - 1;
    assert period >= 2 ==> q >= 3 && period * q >= 2 * q;
    assert period <= -2 ==> q >= 3 && period * q <= -2 * q;
    period * q
  }

  /**
   * The (unrounded) RCI of one window. For a positive denominator it is at
   * most 100, and it is exactly 100 precisely when time and price ranks agree.
   */
  function RciOfWindow(w: seq<int>, period: int): (r: real)
    requires Denominator(period) != 0
    ensures Denominator(period) > 0 ==> r <= 100.0
    ensures r == 100.0 <==> RankDifferenceSum(w, period) == 0
  {
    var d := RankDifferenceSum(w, period);
    Quotient(6 * d, Denominator(period));
    RciFormula(d, Denominator(period))
  }

  /** How the real quotient `a / den` compares with 2 for a positive divisor. */
  lemma QuotientBound(a: int, den: int)
    requires den > 0
    ensures a as real / den as real <= 2.0 <==> a <= 2 * den
    ensures a as real / den as real == 2.0 <==> a == 2 * den
  {
    var q := a as real / den as real;
    assert q * den as real == a as real;
  }

  /** The sign of the real quotient `a / den` for a positive divisor. */
  lemma QuotientSign(a: int, den: int)
    requires den > 0
    ensures a as real / den as real >= 0.0 <==> a >= 0
  {
    var q := a as real / den as real;
    assert q * den as real == a as real;
  }

  /** The facts about `(1 - 6d / den) * 100` that the RCI bounds rest on. */
  lemma FormulaFacts(d: int, den: int)
    requires den != 0
    ensures (1.0 - (6 * d) as real / den as real) * 100.0 == 100.0 <==> d == 0
    ensures den > 0 ==> ((1.0 - (6 * d) as real / den as real) * 100.0 <= 100.0 <==> d >= 0)
    ensures den > 0 ==> ((1.0 - (6 * d) as real / den as real) * 100.0 >= -100.0 <==> 3 * d <= den)
    ensures den > 0 ==> ((1.0 - (6 * d) as real / den as real) * 100.0 == -100.0 <==> 3 * d == den)
  {
    Quotient(6 * d, den);
    if den > 0 {
      QuotientSign(6 * d, den);
      QuotientBound(6 * d, den);
    }
  }

  /**
   * Maps D to (1 - 6D / den) * 100, as `getRci` does, computed exactly rather
   * than in floating point. The value is 100 exactly when D is 0; for a
   * positive divisor it is at most 100 exactly when D >= 0 and at least -100
   * exactly when 3D <= den.
   */
  function RciFormula(d: int, den: int): (r: real)
    requires den != 0
    ensures r == 100.0 <==> d == 0
    ensures den > 0 ==> (r <= 100.0 <==> d >= 0)
    ensures den > 0 ==> (r >= -100.0 <==> 3 * d <= den)
    ensures den > 0 ==> (r == -100.0 <==> 3 * d == den)
  {
    FormulaFacts(d, den);
    (1.0 - (6 * d) as real / den as real) * 100.0
  }

  /** Python's `[None] * n`, which is empty when `n` is not positive. */
  function Nones(n: int): (r: seq<Option<real>>)
    ensures |r| == Max(n, 0)
    ensures forall i :: 0 <= i < |r| ==> r[i] == None
  {
    seq(Max(n, 0), _ => None)
  }

  /** The number of values `end` takes in `range(period - 1, len(close_prices))`. */
  function WindowCount(n: nat, period: int): nat
  {
    Max(0, n - period + 1)
  }

  /**
   * `getRci(close_prices, period)`. For period >= 2 it always succeeds;
   * for periods -1 and 0 it always raises; for period 1 it raises unless the
   * price list is empty. For a positive period the result has
   * max(period - 1, |prices|) entries, of which exactly the first
   * period - 1 are `None`.
   */
  function GetRci(prices: seq<int>, period: int): (r: Result<seq<Option<real>>, RciError>)
    ensures period >= 2 ==> r.Success?
    ensures -1 <= period <= 0 ==> r.Failure?
    ensures period == 1 ==> (r.Success? <==> |prices| == 0)
    ensures period <= -2 ==> r.Success? && |r.value| == |prices| - period + 1
    ensures r.Success? && period >= 1 ==>
              && |r.value| == Max(period - 1, |prices|)
              && forall e :: 0 <= e < |r.value| ==> (r.value[e].None? <==> e < period - 1)
  {
    var count := WindowCount(|prices|, period);
    if count > 0 && Denominator(period) == 0 then Failure(ZeroDivision)
    else
      Success(Nones(period - 1) + WindowValues(prices, period, count))
  }

  /** The values appended by the first `n` iterations of the outer loop. */
  function WindowValues(prices: seq<int>, period: int, n: nat): (r: seq<Option<real>>)
    requires n > 0 ==> Denominator(period) != 0
    ensures |r| == n
    ensures forall k :: 0 <= k < n ==> r[k].Some?
  {
    seq(n, k requires 0 <= k < n => Some(RciOfWindow(Window(prices, period, period - 1 + k), period)))
  }

  lemma WindowValuesStep(prices: seq<int>, period: int, n: nat)
    requires Denominator(period) != 0
    ensures WindowValues(prices, period, n + 1)
            == WindowValues(prices, period, n) + [Some(RciOfWindow(Window(prices, period, period - 1 + n), period))]
  {
    var a := WindowValues(prices, period, n + 1);
    var b := WindowValues(prices, period, n) + [Some(RciOfWindow(Window(prices, period, period - 1 + n), period))];
    assert |a| == |b|;
    forall k | 0 <= k < |a| ensures a[k] == b[k] {
      if k < n {
        assert b[k] == WindowValues(prices, period, n)[k];
      }
    }
  }

  /**
   * The outer loop's state: `acc` holds the `None` prefix followed by the
   * values of every window ending before `end`.
   */
  predicate ValuesBefore(prices: seq<int>, period: int, end: int, acc: seq<Option<real>>)
  {
    && period - 1 <= end
    && (end > period - 1 ==> Denominator(period) != 0)
    && end - (period - 1) <= WindowCount(|prices|, period)
    && acc == Nones(period - 1) + WindowValues(prices, period, end - (period - 1))
  }

  /** Appending the next window's RCI to the values so far gives the values of one more window. */
  lemma AppendWindowValue(prices: seq<int>, period: int, end: int, acc: seq<Option<real>>)
    requires ValuesBefore(prices, period, end, acc) && end < |prices| && Denominator(period) != 0
    ensures ValuesBefore(prices, period, end + 1, acc + [Some(RciOfWindow(Window(prices, period, end), period))])
  {
    var n := end - (period - 1);
    var value := Some(RciOfWindow(Window(prices, period, end), period));
    assert n + 1 <= WindowCount(|prices|, period);
    assert end + 1 - (period - 1) == n + 1;
    assert acc + [value] == Nones(period - 1) + WindowValues(prices, period, n + 1) by {
      WindowValuesStep(prices, period, n);
      assert acc + [value] == Nones(period - 1) + (WindowValues(prices, period, n) + [value]);
    }
  }

  lemma ValuesBeforeAll(prices: seq<int>, period: int, end: int, acc: seq<Option<real>>)
    requires ValuesBefore(prices, period, end, acc) && end >= |prices|
    ensures GetRci(prices, period) == Success(acc)
  {
  }

  lemma ZeroDivisionInLoop(prices: seq<int>, period: int, end: int)
    requires period - 1 <= end < |prices| && Denominator(period) == 0
    ensures GetRci(prices, period) == Failure(ZeroDivision)
  {
  }

  method ComputeRankDifferenceSum(periodPrices: seq<int>, period: int) returns (rankDifferenceSum: int)
    ensures rankDifferenceSum == RankDifferenceSum(periodPrices, period)
  {
    var sortedPrices := SortDesc(periodPrices);
    rankDifferenceSum := 0;
    var i := 0;
    while i < |periodPrices|
      invariant 0 <= i <= |periodPrices|
      invariant rankDifferenceSum == SquaredRankDiffs(periodPrices, sortedPrices, period, i)
    {
      var price := periodPrices[i];
      var timeRank := period - i;
      RearrangementKeepsMembers(sortedPrices, periodPrices, price);
      var priceRank := IndexOf(sortedPrices, price) + 1;
      SquaredRankDiffsStep(periodPrices, sortedPrices, period, i);
      rankDifferenceSum := rankDifferenceSum + Square(timeRank - priceRank);
      i := i + 1;
    }
  }

  /**
   * `getRci` written as the source writes it: an outer loop over window
   * ends, a descending sort per window, and an inner loop accumulating the
   * squared rank differences. It computes exactly `GetRci`.
   */
  method ComputeRci(closePrices: seq<int>, period: int) returns (r: Result<seq<Option<real>>, RciError>)
    ensures r == GetRci(closePrices, period)
  {
    var rciValues := Nones(period - 1);
    var end := period - 1;
    while end < |closePrices|
      invariant ValuesBefore(closePrices, period, end, rciValues)
      decreases |closePrices| - end
    {
      var periodPrices := Window(closePrices, period, end);
      var rankDifferenceSum := ComputeRankDifferenceSum(periodPrices, period);
      var denominator := Denominator(period);
      if denominator == 0 {
        ZeroDivisionInLoop(closePrices, period, end);
        return Failure(ZeroDivision);
      }
      var rci := RciFormula(rankDifferenceSum, denominator);
      assert rci == RciOfWindow(periodPrices, period);
      AppendWindowValue(closePrices, period, end, rciValues);
      rciValues := rciValues + [Some(rci)];
      end := end + 1;
    }
    ValuesBeforeAll(closePrices, period, end, rciValues);
    return Success(rciValues);
  }
}

=== FILE: rci_properties.dfy ===
/**
 * Properties of `getRci`: where each value comes from, its bounds, the
 * monotone extremes, and invariance under order-preserving changes of the
 * prices.
 */
module RciProperties {
  import opened Results
  import opened Sums
  import opened Ranking
  import opened Rci

  // ---------------------------------------------------------------------
  // Shape and locality

  /**
   * For period >= 2, entry `e` of the result, once the first full window
   * ends there, is the RCI of exactly the window prices[e - period + 1 .. e];
   * so two price series that agree on that window agree on entry `e`.
   */
  lemma WindowLocality(prices: seq<int>, other: seq<int>, period: int, e: int)
    requires period >= 2 && period - 1 <= e < |prices| && e < |other|
    requires other[e - period + 1..e + 1] == prices[e - period + 1..e + 1]
    ensures GetRci(prices, period).value[e] == Some(RciOfWindow(prices[e - period + 1..e + 1], period))
    ensures GetRci(other, period).value[e] == GetRci(prices, period).value[e]
  {
    EntryIsWindowRci(prices, period, e);
    EntryIsWindowRci(other, period, e);
  }

  /** Appending prices leaves every earlier entry unchanged: an entry never looks ahead. */
  lemma NoLookAhead(prices: seq<int>, later: seq<int>, period: int, e: int)
    requires period >= 2 && period - 1 <= e < |prices|
    ensures GetRci(prices + later, period).value[e] == GetRci(prices, period).value[e]
  {
    WindowLocality(prices, prices + later, period, e);
  }

  lemma EntryIsWindowRci(prices: seq<int>, period: int, e: int)
    requires period >= 2 && period - 1 <= e < |prices|
    ensures GetRci(prices, period).value[e] == Some(RciOfWindow(prices[e - period + 1..e + 1], period))
  {
    var count := WindowCount(|prices|, period);
    var r := GetRci(prices, period).value;
    assert r == Nones(period - 1) + WindowValues(prices, period, count);
    assert r[e] == WindowValues(prices, period, count)[e - (period - 1)];
    assert Window(prices, period, e) == prices[e - period + 1..e + 1];
  }

  /** With period >= 2 the denominator is positive and D >= 0, so no defined value exceeds 100. */
  lemma DefinedValuesAtMostHundred(prices: seq<int>, period: int)
    requires period >= 2
    ensures forall e :: 0 <= e < |GetRci(prices, period).value| && GetRci(prices, period).value[e].Some? ==>
              GetRci(prices, period).value[e].value <= 100.0
  {
    var r := GetRci(prices, period).value;
    forall e | 0 <= e < |r| && r[e].Some?
      ensures r[e].value <= 100.0
    {
      EntryIsWindowRci(prices, period, e);
    }
  }

  /**
   * The bound needs a period from 2: for period -2 the denominator is -6,
   * and the first window of [1, 2, 3], `close_prices[0:-2] == [1]`, scores 1000.
   */
  lemma NegativePeriodAboveHundred()
    ensures GetRci([1, 2, 3], -2).Success?
    ensures GetRci([1, 2, 3], -2).value[0] == Some(1000.0)
  {
    NegativePeriodOf([1, 2, 3]);
  }

  // The literal reaches `GetRci` through a parameter so that the verifier does not unfold `GetRci` on the literal itself.
  lemma NegativePeriodOf(p: seq<int>)
    requires p == [1, 2, 3]
    ensures GetRci(p, -2).Success? && |GetRci(p, -2).value| > 0
    ensures GetRci(p, -2).value[0] == Some(1000.0)
  {
    var w := Window(p, -2, -3);
    assert w == [1];
    var s := SortDesc(w);
    assert s == [1] by {
      assert multiset(s) == multiset{1};
      assert |s| == 1 && s[0] in multiset(s);
    }
    SquaredRankDiffsStep(w, s, -2, 0);
    assert IndexOf(s, 1) == 0;
    assert RankDifferenceSum(w, -2) == 9 by {
      assert Square(-3) == 9;
    }
    assert Denominator(-2) == -6;
    assert RciOfWindow(w, -2) == 1000.0 by {
      assert (6 * 9) as real / (-6) as real == -9.0;
    }
    var r := GetRci(p, -2).value;
    assert r == Nones(-3) + WindowValues(p, -2, 6);
    assert r[0] == WindowValues(p, -2, 6)[0];
  }

  /**
   * For a negative period the slice bounds count from the end of the list,
   * so entries look ahead: one more price changes entry 0 of [1, 2, 3]
   * under period -2 from 1000 to 3300, its window growing from [1] to [1, 2].
   */
  lemma NegativePeriodLooksAhead()
    ensures GetRci([1, 2, 3], -2).Success? && GetRci([1, 2, 3, 4], -2).Success?
    ensures GetRci([1, 2, 3, 4], -2).value[0] == Some(3300.0)
    ensures GetRci([1, 2, 3, 4], -2).value[0] != GetRci([1, 2, 3], -2).value[0]
  {
    NegativePeriodOf([1, 2, 3]);
    NegativePeriodLongerOf([1, 2, 3, 4]);
  }

  // The literal reaches `GetRci` through a parameter so that the verifier does not unfold `GetRci` on the literal itself.
  lemma NegativePeriodLongerOf(p: seq<int>)
    requires p == [1, 2, 3, 4]
    ensures GetRci(p, -2).Success? && |GetRci(p, -2).value| > 0
    ensures GetRci(p, -2).value[0] == Some(3300.0)
  {
    LongerWindowValue(p);
    var r := GetRci(p, -2).value;
    assert r == Nones(-3) + WindowValues(p, -2, 7);
    assert r[0] == WindowValues(p, -2, 7)[0];
  }

  lemma LongerWindowValue(p: seq<int>)
    requires p == [1, 2, 3, 4]
    ensures RciOfWindow(Window(p, -2, -3), -2) == 3300.0
  {
    var w := Window(p, -2, -3);
    assert w == [1, 2];
    RisingPairDifference(w, SortDesc(w), -2);
    assert Square(-4) == 16;
    assert Denominator(-2) == -6;
    FormulaOfThirtyTwo();
  }

  lemma FormulaOfThirtyTwo()
    ensures RciFormula(32, -6) == 3300.0
  {
    var q := (6 * 32) as real / (-6) as real;
    assert q * (-6) as real == 192.0;
  }

  /** A rising pair puts each price two ranks away from its time rank. */
  lemma RisingPairDifference(w: seq<int>, s: seq<int>, period: int)
    requires IsDescendingSortOf(s, w) && |w| == 2 && w[0] < w[1]
    ensures SquaredRankDiffs(w, s, period, 2) == 2 * Square(period - 2)
  {
    assert w[..1][..0] == [];
    assert CountGreater(w[..1], w[0]) == 0 && CountGreater(w[..1], w[1]) == 0;
    assert CountGreater(w, w[0]) == 1 && CountGreater(w, w[1]) == 0;
    PriceRankTieBreak(s, w, w[0]);
    PriceRankTieBreak(s, w, w[1]);
    SquaredRankDiffsStep(w, s, period, 0);
    SquaredRankDiffsStep(w, s, period, 1);
  }

  // ---------------------------------------------------------------------
  // Ranks of monotone windows

  lemma IncreasingCounts(w: seq<int>, i: int)
    requires StrictlyIncreasing(w) && 0 <= i < |w|
    ensures CountGreater(w, w[i]) == |w| - 1 - i
  {
    var front, back := w[..i + 1], w[i + 1..];
    CountGreaterSplit(w, i + 1, w[i]);
    assert forall j :: 0 <= j < |front| ==> front[j] <= w[i] by {
      forall j | 0 <= j < |front| ensures front[j] <= w[i] {
        assert front[j] == w[j];
      }
    }
    assert forall j :: 0 <= j < |back| ==> back[j] > w[i] by {
      forall j | 0 <= j < |back| ensures back[j] > w[i] {
        assert back[j] == w[i + 1 + j];
      }
    }
    CountGreaterNone(front, w[i]);
    CountGreaterAll(back, w[i]);
  }

  lemma DecreasingCounts(w: seq<int>, i: int)
    requires StrictlyDecreasing(w) && 0 <= i < |w|
    ensures CountGreater(w, w[i]) == i
  {
    var front, back := w[..i], w[i..];
    CountGreaterSplit(w, i, w[i]);
    assert forall j :: 0 <= j < |front| ==> front[j] > w[i] by {
      forall j | 0 <= j < |front| ensures front[j] > w[i] {
        assert front[j] == w[j];
      }
    }
    assert forall j :: 0 <= j < |back| ==> back[j] <= w[i] by {
      forall j | 0 <= j < |back| ensures back[j] <= w[i] {
        assert back[j] == w[i + j];
      }
    }
    CountGreaterAll(front, w[i]);
    CountGreaterNone(back, w[i]);
  }

  /**
   * A window of at least two prices scores exactly 100 if and only if it is
   * strictly increasing: then every price rank equals its time rank.
   */
  lemma HundredIffIncreasing(w: seq<int>)
    requires |w| >= 2
    ensures RciOfWindow(w, |w|) == 100.0 <==> StrictlyIncreasing(w)
  {
    NoDifferenceIffIncreasing(w, SortDesc(w));
  }

  /** D vanishes exactly for strictly increasing windows, whatever descending rearrangement ranks them. */
  lemma NoDifferenceIffIncreasing(w: seq<int>, s: seq<int>)
    requires IsDescendingSortOf(s, w)
    ensures SquaredRankDiffs(w, s, |w|, |w|) == 0 <==> StrictlyIncreasing(w)
  {
    var n := |w|;
    if StrictlyIncreasing(w) {
      forall i | 0 <= i < n ensures w[i] in s && PriceRank(s, w[i]) == TimeRank(n, i) {
        PriceRankTieBreak(s, w, w[i]);
        IncreasingCounts(w, i);
      }
      RanksAgreeNoDifference(w, s, n, n);
    }
    if SquaredRankDiffs(w, s, n, n) == 0 {
      forall i, j | 0 <= i < j < n ensures w[i] < w[j] {
        PriceRankTieBreak(s, w, w[i]);
        PriceRankTieBreak(s, w, w[j]);
        if w[i] >= w[j] {
          CountGreaterAntitone(w, w[j], w[i]);
          assert false;
        }
      }
    }
  }

  // ---------------------------------------------------------------------
  // The lower bound for windows of distinct prices

  /**
   * E: the sum of (price rank - (i + 1))^2 over the first `k` positions; it
   * is zero exactly when the price ranks run 1, 2, 3, ...
   */
  function MirrorSum(w: seq<int>, sorted: seq<int>, k: nat): (e: nat)
    requires multiset(sorted) == multiset(w) && k <= |w|
  {
    if k == 0 then 0
    else
      RearrangementKeepsMembers(sorted, w, w[k - 1]);
      MirrorSum(w, sorted, k - 1) + Square(PriceRank(sorted, w[k - 1]) - k)
  }

  lemma MirrorSumStep(w: seq<int>, sorted: seq<int>, i: nat)
    requires multiset(sorted) == multiset(w) && i < |w|
    ensures w[i] in sorted
    ensures MirrorSum(w, sorted, i + 1) == MirrorSum(w, sorted, i) + Square(PriceRank(sorted, w[i]) - (i + 1))
  {
    RearrangementKeepsMembers(sorted, w, w[i]);
  }

  /** CentredTerm of the price rank of a member of the sorted window. */
  function RankTerm(sorted: seq<int>, m: int): int -> int
  {
    x => if x in sorted then CentredTerm(PriceRank(sorted, x), m) else 0
  }

  lemma PointwiseIdentity(m: int, u: int, b: int)
    ensures Square(m - u - b) + Square(b - u) == CentredTerm(u, m) + CentredTerm(b, m) + Square(m)
  {
  }

  /** The sum of CentredTerm(u, m) + m^2 for u = 1 .. k: the part of D + E fixed by the time ranks. */
  function TimeSide(k: nat, m: int): int
  {
    if k == 0 then 0 else TimeSide(k - 1, m) + CentredTerm(k, m) + Square(m)
  }

  lemma {:induction false} TimeSideValue(k: nat, m: int)
    ensures TimeSide(k, m) == CentredSquares(k, m) + k * Square(m)
  {
    if k > 0 {
      TimeSideValue(k - 1, m);
      var sq := Square(m);
      assert (k - 1) * sq + sq == k * sq;
    }
  }

  lemma DifferencePlusMirrorStep(w: seq<int>, sorted: seq<int>, i: nat)
    requires multiset(sorted) == multiset(w) && i < |w|
    ensures SquaredRankDiffs(w, sorted, |w|, i + 1) + MirrorSum(w, sorted, i + 1)
            == SquaredRankDiffs(w, sorted, |w|, i) + MirrorSum(w, sorted, i)
               + CentredTerm(i + 1, |w| + 1) + Square(|w| + 1) + RankTerm(sorted, |w| + 1)(w[i])
  {
    SquaredRankDiffsStep(w, sorted, |w|, i);
    MirrorSumStep(w, sorted, i);
    PointwiseIdentity(|w| + 1, i + 1, PriceRank(sorted, w[i]));
  }

  lemma SumOfPrefixStep(w: seq<int>, i: nat, g: int -> int)
    requires i < |w|
    ensures SumOf(w[..i + 1], g) == SumOf(w[..i], g) + g(w[i])
  {
    assert w[..i + 1][..i] == w[..i];
  }

  lemma {:induction false} DifferencePlusMirror(w: seq<int>, sorted: seq<int>, k: nat)
    requires multiset(sorted) == multiset(w) && k <= |w|
    ensures SquaredRankDiffs(w, sorted, |w|, k) + MirrorSum(w, sorted, k)
            == TimeSide(k, |w| + 1) + SumOf(w[..k], RankTerm(sorted, |w| + 1))
  {
    if k > 0 {
      DifferencePlusMirror(w, sorted, k - 1);
      DifferencePlusMirrorNext(w, sorted, k - 1);
    }
  }

  lemma DifferencePlusMirrorNext(w: seq<int>, sorted: seq<int>, i: nat)
    requires multiset(sorted) == multiset(w) && i < |w|
    requires SquaredRankDiffs(w, sorted, |w|, i) + MirrorSum(w, sorted, i)
             == TimeSide(i, |w| + 1) + SumOf(w[..i], RankTerm(sorted, |w| + 1))
    ensures SquaredRankDiffs(w, sorted, |w|, i + 1) + MirrorSum(w, sorted, i + 1)
            == TimeSide(i + 1, |w| + 1) + SumOf(w[..i + 1], RankTerm(sorted, |w| + 1))
  {
    DifferencePlusMirrorStep(w, sorted, i);
    SumOfPrefixStep(w, i, RankTerm(sorted, |w| + 1));
  }

  lemma DistinctPermutation(a: seq<int>, b: seq<int>)
    requires multiset(a) == multiset(b) && Distinct(a)
    ensures Distinct(b)
  {
    forall i, j | 0 <= i < j < |b| ensures b[i] != b[j] {
      if b[i] == b[j] {
        var x := b[i];
        assert b == b[..j] + [x] + b[j + 1..];
        assert x in multiset(b[..j]);
        assert multiset(b)[x] >= 2;
        DuplicateWitness(a, x);
      }
    }
  }

  lemma {:induction false} DuplicateWitness(a: seq<int>, x: int)
    requires multiset(a)[x] >= 2
    ensures !Distinct(a)
    decreases |a|
  {
    assert a == [a[0]] + a[1..];
    if a[0] == x {
      assert x in multiset(a[1..]);
      var k :| 0 <= k < |a[1..]| && a[1..][k] == x;
      assert a[0] == a[k + 1];
    } else {
      DuplicateWitness(a[1..], x);
      var i, j :| 0 <= i < j < |a[1..]| && a[1..][i] == a[1..][j];
      assert a[i + 1] == a[j + 1];
    }
  }

  /** In a sequence of distinct prices, the j-th element has price rank j + 1. */
  lemma {:induction false} SortedRankTerms(sorted: seq<int>, m: int, k: nat)
    requires Distinct(sorted) && k <= |sorted|
    ensures SumOf(sorted[..k], RankTerm(sorted, m)) == CentredSquares(k, m)
  {
    if k > 0 {
      SortedRankTerms(sorted, m, k - 1);
      SumOfPrefixStep(sorted, k - 1, RankTerm(sorted, m));
      assert IndexOf(sorted, sorted[k - 1]) == k - 1;
    }
  }

  /**
   * For a window of n distinct prices, D + E = n(n^2 - 1)/3: the squared
   * rank differences D and the mirror sum E share a fixed total.
   */
  lemma DistinctRankIdentity(w: seq<int>, sorted: seq<int>)
    requires IsDescendingSortOf(sorted, w) && Distinct(w)
    ensures 3 * (SquaredRankDiffs(w, sorted, |w|, |w|) + MirrorSum(w, sorted, |w|)) == Denominator(|w|)
  {
    var n := |w|;
    var m := n + 1;
    var g := RankTerm(sorted, m);
    DifferencePlusMirror(w, sorted, n);
    assert w[..n] == w;
    SumOfPermutation(w, sorted, g);
    DistinctPermutation(w, sorted);
    assert |sorted| == n by {
      assert |multiset(sorted)| == |multiset(w)|;
    }
    SortedRankTerms(sorted, m, n);
    assert sorted[..n] == sorted;
    TimeSideClosedForm(n);
  }

  /** The index-only part of D + E adds up to n(n^2 - 1)/3 together with the rank part. */
  lemma TimeSideClosedForm(n: nat)
    ensures 3 * (TimeSide(n, n + 1) + CentredSquares(n, n + 1)) == Denominator(n)
  {
    var m := n + 1;
    TimeSideValue(n, m);
    CentredSquaresClosedForm(n, m);
    var c := CentredSquares(n, m);
    assert 3 * (2 * c + n * (m * m)) == 2 * n * m * (2 * n + 1) - 3 * n * m * m;
    assert 2 * n * m * (2 * n + 1) - 3 * n * m * m == n * m * (n - 1);
    assert n * m * (n - 1) == n * (n * n - 1);
  }

  /** A window of at least two pairwise-distinct prices scores at least -100. */
  lemma DistinctWindowAtLeastMinusHundred(w: seq<int>)
    requires |w| >= 2 && Distinct(w)
    ensures RciOfWindow(w, |w|) >= -100.0
  {
    DistinctRankIdentity(w, SortDesc(w));
    QuotientBound(6 * RankDifferenceSum(w, |w|), Denominator(|w|));
  }

  lemma {:induction false} RanksAscendNoMirror(w: seq<int>, sorted: seq<int>, k: nat)
    requires multiset(sorted) == multiset(w) && k <= |w|
    requires forall i :: 0 <= i < k ==> w[i] in sorted && PriceRank(sorted, w[i]) == i + 1
    ensures MirrorSum(w, sorted, k) == 0
  {
    if k > 0 {
      RanksAscendNoMirror(w, sorted, k - 1);
      MirrorSumStep(w, sorted, k - 1);
    }
  }

  /** A strictly decreasing window of at least two prices scores exactly -100. */
  lemma DecreasingWindowScoresMinusHundred(w: seq<int>)
    requires |w| >= 2 && StrictlyDecreasing(w)
    ensures RciOfWindow(w, |w|) == -100.0
  {
    var s := SortDesc(w);
    forall i | 0 <= i < |w| ensures w[i] in s && PriceRank(s, w[i]) == i + 1 {
      PriceRankTieBreak(s, w, w[i]);
      DecreasingCounts(w, i);
    }
    RanksAscendNoMirror(w, s, |w|);
    DistinctRankIdentity(w, s);
    QuotientBound(6 * RankDifferenceSum(w, |w|), Denominator(|w|));
  }

  /** D of a three-price window, written out term by term. */
  lemma ThreePriceSteps(w: seq<int>, s: seq<int>)
    requires |w| == 3 && multiset(s) == multiset(w)
    ensures w[0] in s && w[1] in s && w[2] in s
    ensures SquaredRankDiffs(w, s, 3, 3)
            == Square(3 - PriceRank(s, w[0])) + Square(2 - PriceRank(s, w[1])) + Square(1 - PriceRank(s, w[2]))
  {
    SquaredRankDiffsStep(w, s, 3, 0);
    SquaredRankDiffsStep(w, s, 3, 1);
    SquaredRankDiffsStep(w, s, 3, 2);
  }

  /** D of a three-price window, with every price rank given by the count of greater prices. */
  lemma ThreePriceDifferenceSum(w: seq<int>)
    requires |w| == 3
    ensures RankDifferenceSum(w, 3)
            == Square(2 - CountGreater(w, w[0])) + Square(1 - CountGreater(w, w[1])) + Square(CountGreater(w, w[2]))
  {
    ThreePriceDifferenceSumIn(w, SortDesc(w));
  }

  lemma ThreePriceDifferenceSumIn(w: seq<int>, s: seq<int>)
    requires |w| == 3 && IsDescendingSortOf(s, w)
    ensures SquaredRankDiffs(w, s, 3, 3)
            == Square(2 - CountGreater(w, w[0])) + Square(1 - CountGreater(w, w[1])) + Square(CountGreater(w, w[2]))
  {
    ThreePriceSteps(w, s);
    PriceRankTieBreak(s, w, w[0]);
    PriceRankTieBreak(s, w, w[1]);
    PriceRankTieBreak(s, w, w[2]);
    var c2: int := CountGreater(w, w[2]);
    assert 1 - PriceRank(s, w[2]) == -c2;
    SquareOfNegation(c2);
  }

  lemma SquareOfNegation(x: int)
    ensures Square(-x) == Square(x)
  {
  }

  /** With period 3 the denominator is 24, so the RCI is 100 - 25 D. */
  lemma ThreePriceRci(w: seq<int>)
    requires |w| == 3
    ensures RciOfWindow(w, 3) == 100.0 - 25.0 * RankDifferenceSum(w, 3) as real
  {
    assert Denominator(3) == 24;
    var d := RankDifferenceSum(w, 3);
    assert (6 * d) as real / 24.0 == d as real / 4.0;
  }

  /**
   * With tied prices the bound fails: in the window [5, 5, 1] both fives
   * take price rank 1, D = 9 exceeds 3(3^2 - 1)/3 = 8, and the value is -125.
   */
  lemma TiedWindowBelowMinusHundred()
    ensures GetRci([5, 5, 1], 3) == Success([None, None, Some(-125.0)])
  {
    TiedWindowOf([5, 5, 1]);
  }

  // The literal reaches `GetRci` through a parameter so that the verifier does not unfold `GetRci` on the literal itself.
  lemma TiedWindowOf(p: seq<int>)
    requires p == [5, 5, 1]
    ensures GetRci(p, 3) == Success([None, None, Some(-125.0)])
  {
    assert Square(2) == 4 && Square(1) == 1;
    EntryOfThreeWindow(p, 2, 0, 0, 2, -125.0);
    var r := GetRci(p, 3).value;
    assert |r| == 3 && r[0] == None && r[1] == None;
    assert r == [None, None, Some(-125.0)];
  }

  lemma ThreePriceValue(w: seq<int>, c0: int, c1: int, c2: int, v: real)
    requires |w| == 3
    requires CountGreater(w, w[0]) == c0 && CountGreater(w, w[1]) == c1 && CountGreater(w, w[2]) == c2
    requires v == 100.0 - 25.0 * (Square(2 - c0) + Square(1 - c1) + Square(c2)) as real
    ensures RciOfWindow(w, 3) == v
  {
    ThreePriceDifferenceSum(w);
    ThreePriceRci(w);
  }

  /** Prices [10, 12, 11, 13, 9] with period 3 give [None, None, 50, 50, -50]. */
  lemma WorkedExample()
    ensures GetRci([10, 12, 11, 13, 9], 3) == Success([None, None, Some(50.0), Some(50.0), Some(-50.0)])
  {
    WorkedExampleOf([10, 12, 11, 13, 9]);
  }

  // The literal reaches `GetRci` through a parameter so that the verifier does not unfold `GetRci` on the literal itself.
  lemma WorkedExampleOf(p: seq<int>)
    requires p == [10, 12, 11, 13, 9]
    ensures GetRci(p, 3) == Success([None, None, Some(50.0), Some(50.0), Some(-50.0)])
  {
    EntryOfThreeWindow(p, 2, 2, 0, 1, 50.0);
    EntryOfThreeWindow(p, 3, 1, 2, 0, 50.0);
    EntryOfThreeWindow(p, 4, 1, 0, 2, -50.0);
    var r := GetRci(p, 3).value;
    assert |r| == 5;
    assert r[0] == None && r[1] == None;
    assert r == [None, None, Some(50.0), Some(50.0), Some(-50.0)];
  }

  /** Entry `e` of a period-3 result, from the counts of greater prices in its window. */
  lemma EntryOfThreeWindow(p: seq<int>, e: int, c0: int, c1: int, c2: int, v: real)
    requires 2 <= e < |p|
    requires c0 == (if p[e - 1] > p[e - 2] then 1 else 0) + (if p[e] > p[e - 2] then 1 else 0)
    requires c1 == (if p[e - 2] > p[e - 1] then 1 else 0) + (if p[e] > p[e - 1] then 1 else 0)
    requires c2 == (if p[e - 2] > p[e] then 1 else 0) + (if p[e - 1] > p[e] then 1 else 0)
    requires v == 100.0 - 25.0 * (Square(2 - c0) + Square(1 - c1) + Square(c2)) as real
    ensures GetRci(p, 3).value[e] == Some(v)
  {
    var w := p[e - 2..e + 1];
    CountGreaterOfThree(w, w[0]);
    CountGreaterOfThree(w, w[1]);
    CountGreaterOfThree(w, w[2]);
    ThreePriceValue(w, c0, c1, c2, v);
    EntryIsWindowRci(p, 3, e);
  }

  lemma CountGreaterOfThree(w: seq<int>, x: int)
    requires |w| == 3
    ensures CountGreater(w, x)
            == (if w[0] > x then 1 else 0) + (if w[1] > x then 1 else 0) + (if w[2] > x then 1 else 0)
  {
    assert w[..2][..1] == w[..1];
    assert w[..1][..0] == [];
    assert CountGreater(w[..1], x) == (if w[0] > x then 1 else 0);
    assert CountGreater(w[..2], x) == CountGreater(w[..1], x) + (if w[1] > x then 1 else 0);
  }

  // ---------------------------------------------------------------------
  // Only the order of the prices matters

  /** `ps` and `qs` have the same length and the same strict order between any two positions. */
  ghost predicate SameOrder(ps: seq<int>, qs: seq<int>)
  {
    && |ps| == |qs|
    && forall i, j :: 0 <= i < |ps| && 0 <= j < |ps| ==> (ps[i] < ps[j] <==> qs[i] < qs[j])
  }

  lemma {:induction false} CountGreaterSameOrder(w: seq<int>, v: seq<int>, i: int, k: nat)
    requires SameOrder(w, v) && 0 <= i < |w| && k <= |w|
    ensures CountGreater(w[..k], w[i]) == CountGreater(v[..k], v[i])
  {
    if k > 0 {
      CountGreaterSameOrder(w, v, i, k - 1);
      assert w[..k][..k - 1] == w[..k - 1];
      assert v[..k][..k - 1] == v[..k - 1];
    }
  }

  lemma PriceRankSameOrder(w: seq<int>, sw: seq<int>, v: seq<int>, sv: seq<int>, i: int)
    requires SameOrder(w, v) && 0 <= i < |w|
    requires IsDescendingSortOf(sw, w) && IsDescendingSortOf(sv, v)
    ensures w[i] in sw && v[i] in sv
    ensures PriceRank(sw, w[i]) == PriceRank(sv, v[i])
  {
    PriceRankTieBreak(sw, w, w[i]);
    PriceRankTieBreak(sv, v, v[i]);
    CountGreaterSameOrder(w, v, i, |w|);
    assert w[..|w|] == w && v[..|v|] == v;
  }

  /** Windows whose prices take the same price ranks, position by position, have the same D. */
  lemma {:induction false} SquaredRankDiffsSameRanks(
    w: seq<int>, sw: seq<int>, v: seq<int>, sv: seq<int>, period: int, k: nat)
    requires multiset(sw) == multiset(w) && multiset(sv) == multiset(v)
    requires |w| == |v| && k <= |w|
    requires forall i :: 0 <= i < |w| ==> w[i] in sw && v[i] in sv && PriceRank(sw, w[i]) == PriceRank(sv, v[i])
    ensures SquaredRankDiffs(w, sw, period, k) == SquaredRankDiffs(v, sv, period, k)
  {
    if k > 0 {
      SquaredRankDiffsSameRanks(w, sw, v, sv, period, k - 1);
      SameRankStep(w, sw, v, sv, period, k - 1);
    }
  }

  lemma SameRankStep(w: seq<int>, sw: seq<int>, v: seq<int>, sv: seq<int>, period: int, i: nat)
    requires multiset(sw) == multiset(w) && multiset(sv) == multiset(v)
    requires i < |w| == |v|
    requires w[i] in sw && v[i] in sv && PriceRank(sw, w[i]) == PriceRank(sv, v[i])
    requires SquaredRankDiffs(w, sw, period, i) == SquaredRankDiffs(v, sv, period, i)
    ensures SquaredRankDiffs(w, sw, period, i + 1) == SquaredRankDiffs(v, sv, period, i + 1)
  {
    SquaredRankDiffsStep(w, sw, period, i);
    SquaredRankDiffsStep(v, sv, period, i);
  }

  lemma WindowSameOrder(ps: seq<int>, qs: seq<int>, period: int, e: int)
    requires SameOrder(ps, qs)
    ensures SameOrder(Window(ps, period, e), Window(qs, period, e))
  {
    var l := SliceBound(e - period + 1, |ps|);
    var h := SliceBound(e + 1, |ps|);
    if l < h {
      var a, b := ps[l..h], qs[l..h];
      forall i, j | 0 <= i < |a| && 0 <= j < |a| ensures a[i] < a[j] <==> b[i] < b[j] {
        assert a[i] == ps[l + i] && a[j] == ps[l + j];
        assert b[i] == qs[l + i] && b[j] == qs[l + j];
      }
    }
  }

  /** Two windows with the same order have the same rank-difference sum. */
  lemma RankDifferenceSumSameOrder(w: seq<int>, v: seq<int>, period: int)
    requires SameOrder(w, v)
    ensures RankDifferenceSum(w, period) == RankDifferenceSum(v, period)
  {
    var sw, sv := SortDesc(w), SortDesc(v);
    forall i | 0 <= i < |w| ensures w[i] in sw && v[i] in sv && PriceRank(sw, w[i]) == PriceRank(sv, v[i]) {
      PriceRankSameOrder(w, sw, v, sv, i);
    }
    SquaredRankDiffsSameRanks(w, sw, v, sv, period, |w|);
  }

  lemma RciOfWindowSameOrder(w: seq<int>, v: seq<int>, period: int)
    requires SameOrder(w, v) && Denominator(period) != 0
    ensures RciOfWindow(w, period) == RciOfWindow(v, period)
  {
    RankDifferenceSumSameOrder(w, v, period);
  }

  /**
   * Each value depends only on the relative order of the prices: two series
   * with the same order between every pair of positions get the same result.
   */
  lemma OrderInvariance(ps: seq<int>, qs: seq<int>, period: int)
    requires SameOrder(ps, qs)
    ensures GetRci(ps, period) == GetRci(qs, period)
  {
    var count := WindowCount(|ps|, period);
    if !(count > 0 && Denominator(period) == 0) {
      var a, b := WindowValues(ps, period, count), WindowValues(qs, period, count);
      forall k | 0 <= k < count ensures a[k] == b[k] {
        var e := period - 1 + k;
        WindowSameOrder(ps, qs, period, e);
        RciOfWindowSameOrder(Window(ps, period, e), Window(qs, period, e), period);
      }
      assert a == b;
    }
  }

  /** `f` applied to every price. */
  function MapPrices(f: int -> int, ps: seq<int>): (r: seq<int>)
    ensures |r| == |ps| && forall i :: 0 <= i < |ps| ==> r[i] == f(ps[i])
  {
    seq(|ps|, i requires 0 <= i < |ps| => f(ps[i]))
  }

  /**
   * A strictly increasing transformation of all prices, such as adding a
   * constant or scaling by a positive factor, leaves every output unchanged.
   */
  lemma MonotoneTransformInvariance(ps: seq<int>, f: int -> int, period: int)
    requires forall a, b :: a < b ==> f(a) < f(b)
    ensures GetRci(MapPrices(f, ps), period) == GetRci(ps, period)
  {
    var qs := MapPrices(f, ps);
    forall i, j | 0 <= i < |ps| && 0 <= j < |ps| ensures ps[i] < ps[j] <==> qs[i] < qs[j] {
      if ps[j] < ps[i] {
        assert f(ps[j]) < f(ps[i]);
      }
    }
    OrderInvariance(ps, qs, period);
  }
}

=== FILE: results.dfy ===
/** Option and Result wrappers used by the RCI model. */
module Results {

  /** A value that may be absent; `None` stands for Python's `None`. */
  datatype Option<+T> = None | Some(value: T)

  /** The outcome of a computation that either returns a value or raises. */
  datatype Result<+R, +E> = Success(value: R) | Failure(error: E)
}

=== FILE: sums.dfy ===
/** Sums over sequences and over integer ranges, with the facts the rank proofs need. */
module Sums {

  /** The sum of `f` over the elements of `xs`, accumulated from the front like a running total. */
  function SumOf(xs: seq<int>, f: int -> int): int
  {
    if |xs| == 0 then 0 else SumOf(xs[..|xs| - 1], f) + f(xs[|xs| - 1])
  }

  lemma {:induction false} SumOfConcat(a: seq<int>, b: seq<int>, f: int -> int)
    ensures SumOf(a + b, f) == SumOf(a, f) + SumOf(b, f)
    decreases |b|
  {
    if |b| == 0 {
      assert a + b == a;
    } else {
      SumOfConcat(a, b[..|b| - 1], f);
      assert (a + b)[..|a + b| - 1] == a + b[..|b| - 1];
    }
  }

  /** A sum over the elements of a sequence does not depend on their order. */
  lemma {:induction false} SumOfPermutation(a: seq<int>, b: seq<int>, f: int -> int)
    requires multiset(a) == multiset(b)
    ensures SumOf(a, f) == SumOf(b, f)
    decreases |a|
  {
    if |a| == 0 {
      assert |b| == |multiset(b)| == 0;
    } else {
      var y := a[|a| - 1];
      assert y in multiset(b) by {
        assert y in multiset(a);
      }
      var j :| 0 <= j < |b| && b[j] == y;
      var a', b' := a[..|a| - 1], b[..j] + b[j + 1..];
      RemoveLastAndAt(a, b, j);
      SumOfPermutation(a', b', f);
      SumOfRemoveAt(b, j, f);
    }
  }

  /** Removing the last element of `a` and an equal element of `b` keeps the multisets equal. */
  lemma RemoveLastAndAt(a: seq<int>, b: seq<int>, j: nat)
    requires multiset(a) == multiset(b) && |a| > 0 && j < |b| && b[j] == a[|a| - 1]
    ensures multiset(a[..|a| - 1]) == multiset(b[..j] + b[j + 1..])
  {
    var y := a[|a| - 1];
    assert a == a[..|a| - 1] + [y];
    assert b == b[..j] + [y] + b[j + 1..];
    assert multiset(a[..|a| - 1]) == multiset(a) - multiset{y};
    assert multiset(b[..j] + b[j + 1..]) == multiset(b) - multiset{y};
  }

  /** The sum over `b` is the sum without position `j` plus the term at `j`. */
  lemma SumOfRemoveAt(b: seq<int>, j: nat, f: int -> int)
    requires j < |b|
    ensures SumOf(b, f) == SumOf(b[..j] + b[j + 1..], f) + f(b[j])
  {
    SplitAt(b, j);
    SumOfMiddle(b[..j], b[j], b[j + 1..], f);
  }

  lemma SplitAt(b: seq<int>, j: nat)
    requires j < |b|
    ensures b == b[..j] + [b[j]] + b[j + 1..]
  {
  }

  lemma SumOfMiddle(p: seq<int>, y: int, q: seq<int>, f: int -> int)
    ensures SumOf(p + [y] + q, f) == SumOf(p + q, f) + f(y)
  {
    SumOfConcat(p, [y], f);
    SumOfConcat(p + [y], q, f);
    SumOfConcat(p, q, f);
    assert SumOf([y], f) == f(y) by {
      assert [y][..0] == [];
    }
  }

  /** 2j^2 - 2mj, the part of (m - j - b)^2 + (b - j)^2 that depends on j alone. */
  function CentredTerm(j: int, m: int): int
  {
    2 * j * j - 2 * m * j
  }

  /** The sum of CentredTerm(j, m) for j = 1 .. k. */
  function CentredSquares(k: nat, m: int): int
  {
    if k == 0 then 0 else CentredSquares(k - 1, m) + CentredTerm(k, m)
  }

  /** Closed form of `CentredSquares`, from the sums of the first k squares and integers. */
  lemma {:induction false} CentredSquaresClosedForm(k: nat, m: int)
    ensures 3 * CentredSquares(k, m) == k * (k + 1) * (2 * k + 1) - 3 * m * k * (k + 1)
  {
    if k > 0 {
      CentredSquaresClosedForm(k - 1, m);
      CubicStep(k);
      QuadraticStep(k, m);
    }
  }

  lemma CubicStep(k: int)
    ensures k * (k + 1) * (2 * k + 1) == (k - 1) * k * (2 * k - 1) + 6 * k * k
  {
  }

  lemma QuadraticStep(k: int, m: int)
    ensures 3 * m * k * (k + 1) == 3 * m * (k - 1) * k + 6 * m * k
  {
  }
}
